=== FILE: README.md ===
# ML-dataset-bot core, modelled in Dafny

The bot answers each incoming text message in one of two modes. The message
`MLparset` (after stripping surrounding whitespace) bundles the regular, non-zip
files of the staging directory into a temporary zip and sends it back with a
caption. Any other non-empty text is a search query. The query goes to the
Kaggle, HuggingFace and GitHub adapters that are registered. Their results are
concatenated in that order and the first ten are rendered as a numbered Markdown
list of links. If the transport rejects the Markdown, the same text is sent as
plain text without `*`. The model also covers the file utilities: splitting a
large file into numbered parts, removing a list of paths, and zipping a
directory tree.

The model is pure. Every outside effect is either a parameter or a part of the result:

- Each catalog backend is a function from the request the adapter builds to the
  answer it gives. That answer is a list or a failure.
- Each adapter returns the requests it issued along with its results. So "never
  calls", "calls once" and "calls at most twice" are properties of the result.
- The transport is three flags: `markdownDelivered`, whether the Markdown reply
  was accepted; `Bundle.Oracles.editOk`, whether the "Uploading bundle" status
  edit succeeded; and `Bundle.Oracles.uploadOk`, whether the bundle upload succeeded.
  The messages sent are a sequence of `Chat.Outbound` values.
- The filesystem is a map from path to node: a file with contents and
  readability, a directory, or something else. The staging directory is a
  sequence of entries in listing order.
- The other environment decisions of the bundle are in `Bundle.Oracles`: the
  temporary name handed out, and whether the zip write and the final removal
  succeed. The file utilities take theirs as parameters: `failingWrite` of
  `FileManager.SplitLargeFile` names the first part write that raises, and
  `failing` of `FileManager.Cleanup` is the set of paths whose removal raises.

Modules, one per file:

- `Base`: `Option`, bytes.
- `Text`: Python's `strip`, `endswith`, `replace(c, '')`, and decimal rendering.
- `FileSystem`: paths and nodes.
- `Chat`: outbound messages.
- `SearchResults`: the common result record and Python prefix slicing.
- `Kaggle`, `HuggingFace`, `GitHub`: the adapters.
- `Aggregator`: the search handler.
- `Bundle`: the `MLparset` handler.
- `FileManager`: the file utilities.
- `Router`: the message router.

Behaviour worth noting:

- Results are concatenated without any deduplication.
- In the Markdown reply each listing line shows the title as a link to the URL;
  the URL itself is not printed. The plain-text retry shows `[title](url)` as is.
- The plain-text fallback removes only `*`. Brackets and parentheses stay.
- An empty text is passed on to the search handler, which returns without
  sending anything.

## Model

| member | source | states |
|---|---|---|
| Router.Classify | handlers/simple_handler.py:28-37 | the message goes to the bundle exactly when its stripped text is `MLparset`; otherwise the search gets the stripped text, which has no surrounding whitespace and is not the keyword |
| Router.PaddedKeywordBundles | handlers/simple_handler.py:28-31 | whitespace of any kind around `MLparset` still selects the bundle |
| Router.PaddedTextSearches | handlers/simple_handler.py:28-37 | any other text, whatever whitespace pads it, reaches the search as exactly the unpadded text |
| Router.KeywordIsCaseSensitive | handlers/simple_handler.py:31 | `mlparset` is an ordinary search query, not the keyword |
| Router.BlankRoutesToEmptySearch | handlers/simple_handler.py:28 | a message with no text or only whitespace routes to the search with the empty query |
| Router.HandleMessage | handlers/simple_handler.py:20-37 | the bundle runs exactly when the stripped text is the keyword; otherwise the search runs on the stripped text |
| Router.BlankMessageIsSilent | handlers/simple_handler.py:28-37 | a message with no text or only whitespace gets no reply and reaches no backend |
| Text.Strip | handlers/simple_handler.py:28 | the result has no whitespace at either end; it is the input with its leading whitespace removed, and only whitespace follows it |
| Text.StripPadded | handlers/simple_handler.py:28 | stripping any whitespace padding from a trimmed string gives back exactly that string |
| Text.StripIdempotent | handlers/simple_handler.py:28 | stripping twice is stripping once |
| Text.RemoveAll | handlers/simple_handler.py:153 | the result has no `c`; every other character keeps its multiplicity |
| Text.RemoveAllAppend | handlers/simple_handler.py:153 | removal works piecewise over a concatenation, so surviving characters keep their order |
| Text.RemoveAllAbsent | handlers/simple_handler.py:153 | a text without `*` passes through the fallback's removal unchanged |
| Text.NatToDecimal | handlers/simple_handler.py:84 | the rendering is non-empty and all digits, with a leading zero only for zero itself |
| Text.DecimalRoundTrip | handlers/simple_handler.py:146 | reading back the decimal rendering of a number gives the number |
| Text.DecimalInjective | handlers/simple_handler.py:146 | distinct numbers render differently, so listing numbers never repeat |
| Bundle.Select | handlers/simple_handler.py:51-54 | an entry is selected exactly when it is listed, is a regular file and does not end in `.zip` |
| Bundle.SelectAppend | handlers/simple_handler.py:51-54 | selection keeps the listing order |
| Bundle.WriteArchive | handlers/simple_handler.py:70-76 | every readable selected file is in the zip under its own name; every zip entry is a readable selected file; unreadable files are skipped |
| Bundle.WriteArchiveAppend | handlers/simple_handler.py:70-76 | the zip is written file by file in selection order: writing a concatenated selection is writing each part in turn, which fixes entry order and multiplicity |
| Bundle.HandleBundle | handlers/simple_handler.py:44-102 | a missing directory and an empty selection each get their own notice, and nothing else happens: no temporary file is made. The bundle is sent exactly when the name allocation, the zip write, the "uploading" status edit and the upload all succeed, and the zip sent is the one written from the selection. A failed name allocation, zip write or status edit gives exactly the "compressing" reply and the error edit, with no upload; a failed upload follows the upload attempt with the error edit. The staging directory is never changed, and the temporary zip survives only when its removal fails |
| Bundle.OnlyArchivesMeansNothingToBundle | handlers/simple_handler.py:51-58 | a directory holding only zips and non-files gives the "empty" notice |
| Bundle.SentArchiveContents | handlers/simple_handler.py:51-86 | a sent zip holds every readable regular non-zip file under its own name, and nothing else |
| Bundle.CaptionCountsSelection | handlers/simple_handler.py:74-84 | the caption counts files selected, not files written: one unreadable file of two still gives "Files: 2" over a one-entry zip |
| Kaggle.AvailabilityDecidesCalls | services/kaggle_service.py:16-28 | whether authentication succeeded at construction decides every later search: one request to the API when it did, no request and no results when it did not |
| Kaggle.ToResult | services/kaggle_service.py:53-61 | a missing title falls back to the ref; a missing url falls back to the site plus the ref; a missing ref is empty |
| Kaggle.Search | services/kaggle_service.py:30-66 | an unavailable service issues no request. Otherwise exactly one request goes out, sorted by votes, for page 1. A failure gives `[]`. A list gives as many results as Python's `datasets[:max_results]` holds, negative `max_results` included, each the shaped dataset at the same position |
| Kaggle.UnavailableShortCircuits | services/kaggle_service.py:41-43 | an unavailable service answers the same whatever the backend would say, and never calls it |
| Kaggle.NegativeLimitDropsFromEnd | services/kaggle_service.py:51 | `max_results = -1` drops the last dataset |
| HuggingFace.ToResult | services/huggingface_service.py:44-53 | the title is the id, or `Unknown` when it is missing; the url is the dataset page of that title |
| HuggingFace.Search | services/huggingface_service.py:24-58 | exactly one request goes out, carrying the limit, the token and the sort by downloads. A failure gives `[]`. Every listed dataset is shaped, in order |
| HuggingFace.UrlIsPageOfTitle | services/huggingface_service.py:46-53 | every result links to the dataset page named by its own title |
| HuggingFace.LimitNotEnforced | services/huggingface_service.py:37-53 | the adapter does not cut the list to `max_results`: a hub that returns three for limit 1 gets three through |
| GitHub.Headers | services/github_service.py:17-25 | the headers always accept the v3 JSON type; `Authorization: token …` is present exactly when a non-empty token is configured |
| GitHub.ShapeItems | services/github_service.py:62-69 | every item shapes to a GitHub result with its full name and link; a single item missing either key gives no results at all |
| GitHub.Shape | services/github_service.py:62-76 | a failed request, or an answer without items or with an empty list, gives `[]`; an item list in which every item has both keys gives exactly those items shaped, in order; any non-empty result is such a list; all results are from GitHub |
| GitHub.Search | services/github_service.py:38-76 | the first request uses the dataset topics, sorted by stars in descending order. A second request, with the machine-learning topic, goes out exactly when the first found nothing. The results come from the last answer. Errors give `[]` |
| GitHub.OneMalformedItemEmptiesAll | services/github_service.py:63-76 | one malformed item among good ones makes the whole search return `[]` |
| GitHub.NoBroadeningOnHit | services/github_service.py:55-60 | when the first request finds items, no second request goes out |
| SearchResults.SliceTo | services/kaggle_service.py:51 | Python's `xs[:n]`: a prefix of length `n` (capped) for `n >= 0`, and all but the last `-n` for negative `n` |
| Aggregator.Collect | handlers/simple_handler.py:113-127 | the results are Kaggle's, then HuggingFace's, then GitHub's, each in its adapter's order; an unregistered adapter is never called; every result has all three keys |
| Aggregator.Icon | handlers/simple_handler.py:143 | a trophy for Kaggle, a hugging face for HuggingFace, a laptop for anything else |
| Aggregator.ListingAppend | handlers/simple_handler.py:137-146 | listing two blocks is listing the first, then the second numbered on from it |
| Aggregator.Line | handlers/simple_handler.py:139-146 | no contract of its own: the format `{n}. {icon} [{title}]({url})` and the `Unknown`/`Untitled`/`#` defaults are its definition; its properties are stated by `Aggregator.RenderedInOrder` and `Aggregator.RenderLineCount` |
| Aggregator.Render | handlers/simple_handler.py:134-146 | no contract of its own: the header followed by the lines of the first ten results is its definition; `Aggregator.RenderedInOrder`, `Aggregator.RenderIgnoresTail` and `Aggregator.RenderLineCount` state its properties |
| Aggregator.RenderedInOrder | handlers/simple_handler.py:134-146 | among the first ten, result `i` appears as line `i + 1`, after all earlier results and before all later ones |
| Aggregator.RenderIgnoresTail | handlers/simple_handler.py:137 | results beyond the tenth do not affect the rendering |
| Aggregator.ListingLineCount | handlers/simple_handler.py:137-146 | a listing of single-line entries has one line per result |
| Aggregator.RenderLineCount | handlers/simple_handler.py:134-146 | when no title or url contains a line break: the response has two header lines plus min(10, n) result lines, plus any line breaks in the query |
| Aggregator.Fallback | handlers/simple_handler.py:150-153 | the plain-text retry starts with the warning and contains no `*`; its remainder is the response, in order, with exactly the `*` removed |
| Aggregator.FallbackKeepsOrder | handlers/simple_handler.py:153 | removal works piece by piece over the response, so the surviving text keeps its order; a response without `*` is retried verbatim after the warning |
| Aggregator.Respond | handlers/simple_handler.py:111-153 | the searching notice comes first. No results gives the no-results notice. Otherwise the Markdown response follows, and a plain-text retry is added exactly when the Markdown was rejected |
| Aggregator.HandleSearch | handlers/simple_handler.py:104-153 | an empty query sends nothing and calls no backend; otherwise the replies are those of `Respond` over the collected results |
| Aggregator.IrisExample | handlers/simple_handler.py:104-149 | a search for "iris" with one Kaggle hit replies with the searching notice and a one-line listing linking that dataset |
| FileManager.ReadBlock | utils/file_manager.py:84 | a successful `read(n)` returns a prefix of the rest: all of it for `n = -1`, otherwise `min(n, remaining)` bytes; a size below `-1` is not a successful read (the buffered reader raises `ValueError`) |
| FileManager.Blocks | utils/file_manager.py:82-92 | for a limit of at least `-1`: no block is empty; a zero limit gives none; with a positive limit, every block but the last is full-sized and none is larger |
| FileManager.BlocksFlatten | utils/file_manager.py:82-92 | with a positive limit or `-1`, the blocks in order are the whole file |
| FileManager.BlocksCount | utils/file_manager.py:82-92 | with a positive limit there are ceil(size / limit) blocks |
| FileManager.BlocksWhole | utils/file_manager.py:84 | with the limit `-1` a non-empty file is a single block |
| FileManager.PartNamesDistinct | utils/file_manager.py:88 | distinct part numbers give distinct part names |
| FileManager.SplitLargeFile | utils/file_manager.py:69-98 | a failing size lookup raises. A file within the limit is returned as is. A limit below `-1` makes the first read raise inside the `try`, so `[]` is returned and nothing is written. Otherwise part `i` is block `i`, named `.part{i+1}`. All the part names are returned exactly when no write fails; after a failed write, `[]` is returned and the earlier parts stay on disk |
| FileManager.SplitRoundTrip | utils/file_manager.py:69-95 | with a positive limit smaller than the file, the parts in order rebuild the file; there are ceil(size / limit) of them, all full but the last |
| FileManager.SplitZeroLimit | utils/file_manager.py:74-95 | a zero limit on a non-empty file returns `[]` and writes nothing |
| FileManager.SplitNegativeLimit | utils/file_manager.py:74-95 | the limit `-1` on a non-empty file writes the whole file as `.part1` |
| FileManager.SplitInvalidLimit | utils/file_manager.py:74-98 | a limit below `-1` returns `[]` and writes nothing, whatever the file |
| FileManager.RemovePath | utils/file_manager.py:106-113 | a directory goes with everything below it; a file goes alone; anything else, a missing path or a raising removal changes nothing |
| FileManager.Cleanup | utils/file_manager.py:101-113 | a path remains exactly when no successful step removes it, judged on the starting filesystem; a failure does not stop the later steps; what remains is unchanged |
| FileManager.CleanupStepGone | utils/file_manager.py:105-113 | a path some step would remove is gone after the first step and the rest |
| FileManager.CleanupStepKept | utils/file_manager.py:105-113 | a path no step removes survives the first step and the rest |
| FileManager.CleanupRemovesDirectoryTree | utils/file_manager.py:107-108 | everything below a listed directory whose removal succeeds is gone |
| FileManager.ZipDirectory | utils/file_manager.py:46-66 | the zip is written exactly when the write succeeds and every walked file is readable. It lies at `TEMP_DIR/name.zip`. It holds exactly the files below the directory, under their relative paths, with their contents |
| FileSystem.RelPath | utils/file_manager.py:58 | joining the directory with the relative path gives back the path |

## Left out

- Transport: every send except the Markdown reply, the document upload and the "Uploading bundle" status edit is assumed to succeed. This covers the other notices, the "Compressing" reply, the error edit and the plain-text retry; a failure there would propagate out of the handler. The "Uploading bundle" edit sits inside the bundle's `try`; its failure is the `editOk` flag and ends with the error edit before any upload.
- Logging everywhere, and the timeouts of the GitHub requests: they do not change any result.
- The DEFLATE compression of the zips: an archive is modelled as its list of entries.
- Concurrency: the temporary zip name is assumed to be fresh, as `tempfile` promises. Nothing is modelled across requests.
- `FileManager.SplitLargeFile`: a part file whose `open(..., 'wb')` succeeded but whose write then raised stays on disk, possibly truncated. `written` lists only the parts written completely, not that partial file.
- `FileManager.SplitLargeFile`: the default `limit_bytes = Config.CHUNK_SIZE` is not modelled. The configuration defines no `CHUNK_SIZE`, so evaluating that default while the class body runs would raise `AttributeError` on import. The model takes the limit as an explicit parameter, as a caller passing it would.
- `Bundle.HandleBundle`: the zip is written as a whole, or fails as a whole through `archiveOk`. A failure partway through that leaves a partial zip is not distinguished.
- `FileManager.Cleanup`: `shutil.rmtree` either removes the whole tree or raises before removing anything. A partial removal followed by an error is not modelled.
- `FileManager.ZipDirectory`: the zip is assumed to be written outside the walked directory. When `TEMP_DIR` lies inside `dir_path`, the real walk could also meet the zip being written. A file that cannot be read fails the whole zip.
- `FileManager.ZipDirectory`: `os.walk` is called without `onerror`, so a subdirectory that cannot be listed is skipped silently and the zip still succeeds without its files. The filesystem model has no unlistable directory, so every file below the directory is in the zip.
- `Kaggle.ToResult`: a `ref`, `title` or `url` attribute that is present but `None` is treated like a missing attribute (or, for `ref`, is not expressible). In the code a `None` title or url passes through as `None`, and a `None` ref makes the fallback url end in `None`.
- `HuggingFace.ToResult`: an `id` attribute present but `None` is not modelled. In the code it gives the title `None` and a url ending in `/None`.
- `GitHub.ShapeItems`: a `full_name` or `html_url` key present with the value `null` is not modelled. In the code it passes through as a `None` title or url.
- `Bundle.HandleBundle`: `os.listdir` raising on a staging path that exists but cannot be listed (for example a plain file) is not modelled. In the code it happens before the `try`, so the exception leaves the handler with no reply; `Bundle.World.staging` has no value for it.
- `download_file`, the application bootstrap (`main.py`), configuration loading (`config.py`), the logger set-up and the dataset catalogue in `utils/datasets.py` are not part of this model.

=== FILE: aggregator.dfy ===
/** The search pipeline of the handler: ask the registered adapters in a fixed order,
    concatenate, keep the first ten, render a numbered Markdown list, and fall back to
    plain text when the Markdown reply is rejected. */
module Aggregator {
  import opened Base
  import opened Text
  import opened SearchResults
  import opened Chat
  import Kaggle
  import HuggingFace
  import GitHub

  /** The adapters are called with their default `max_results`. */
  const DEFAULT_MAX_RESULTS: int := 5
  /** At most this many results are listed. */
  const SHOWN: nat := 10

  const NO_RESULTS: string := "❌ No results found. Try a broader keyword."
  /** Written as two literals so the verifier can see, piece by piece, that it holds no `*`. */
  const FALLBACK_PREFIX: string := "⚠️ formatting error, " + "but here are the results:\n"
  const KAGGLE_ICON: string := "🏆"
  const HUGGING_FACE_ICON: string := "🤗"
  const OTHER_ICON: string := "💻"

  /** The service registry handed to the handler: an adapter per catalog, or none. */
  datatype Registry = Registry(kaggle: Option<Kaggle.KaggleService>,
                               hf: Option<HuggingFace.HfService>,
                               github: Option<GitHub.GitHubService>)

  /** The three catalog backends, as the answers they give to each request. */
  datatype Backends = Backends(kaggle: Kaggle.ListRequest -> Kaggle.ListResponse,
                               hf: HuggingFace.ListRequest -> HuggingFace.ListResponse,
                               github: GitHub.SearchRequest -> GitHub.SearchResponse)

  /** What one search did: the concatenated results and each backend's requests. */
  datatype Collected = Collected(results: seq<SearchResult>,
                                 kaggleCalls: seq<Kaggle.ListRequest>,
                                 hfCalls: seq<HuggingFace.ListRequest>,
                                 githubCalls: seq<GitHub.SearchRequest>)

  /** Nothing was asked of any backend. */
  predicate NoCalls(c: Collected) {
    c.kaggleCalls == [] && c.hfCalls == [] && c.githubCalls == []
  }

  /** Each adapter's part of the search; an unregistered adapter contributes nothing. */
  function KaggleShare(query: string, reg: Registry, be: Backends): Searched<Kaggle.ListRequest> {
    if reg.kaggle.Some? then Kaggle.Search(reg.kaggle.value, query, DEFAULT_MAX_RESULTS, be.kaggle)
    else Searched([], [])
  }

  function HfShare(query: string, reg: Registry, be: Backends): Searched<HuggingFace.ListRequest> {
    if reg.hf.Some? then HuggingFace.Search(reg.hf.value, query, DEFAULT_MAX_RESULTS, be.hf)
    else Searched([], [])
  }

  function GitHubShare(query: string, reg: Registry, be: Backends): Searched<GitHub.SearchRequest> {
    if reg.github.Some? then GitHub.Search(reg.github.value, query, DEFAULT_MAX_RESULTS, be.github)
    else Searched([], [])
  }

  /** The aggregated list: Kaggle's results, then HuggingFace's, then GitHub's, each
      block in its adapter's own order; unregistered adapters are never called. */
  function Collect(query: string, reg: Registry, be: Backends): (c: Collected)
    ensures var k := KaggleShare(query, reg, be).results;
            var h := HfShare(query, reg, be).results;
            var g := GitHubShare(query, reg, be).results;
            && |c.results| == |k| + |h| + |g|
            && c.results[..|k|] == k
            && c.results[|k|..|k| + |h|] == h
            && c.results[|k| + |h|..] == g
    ensures forall i :: 0 <= i < |c.results| ==> Complete(c.results[i])
    ensures c.kaggleCalls == KaggleShare(query, reg, be).calls
    ensures c.hfCalls == HfShare(query, reg, be).calls
    ensures c.githubCalls == GitHubShare(query, reg, be).calls
    ensures reg.kaggle.None? ==> c.kaggleCalls == []
    ensures reg.hf.None? ==> c.hfCalls == []
    ensures reg.github.None? ==> c.githubCalls == []
  {
    var k := KaggleShare(query, reg, be);
    var h := HfShare(query, reg, be);
    var g := GitHubShare(query, reg, be);
    Collected(k.results + h.results + g.results, k.calls, h.calls, g.calls)
  }

  /** The icon for a platform name: a trophy for Kaggle, a hugging face for
      HuggingFace, a laptop for anything else. */
  function Icon(platform: string): (icon: string)
    ensures platform == KAGGLE ==> icon == KAGGLE_ICON
    ensures platform == HUGGING_FACE ==> icon == HUGGING_FACE_ICON
    ensures platform != KAGGLE && platform != HUGGING_FACE ==> icon == OTHER_ICON
    ensures '\n' !in icon && '*' !in icon
  {
    if platform == KAGGLE then KAGGLE_ICON
    else if platform == HUGGING_FACE then HUGGING_FACE_ICON
    else OTHER_ICON
  }

  /** The `n`-th line of the listing, with the renderer's defaults for missing keys. */
  function Line(n: nat, r: SearchResult): string {
    NatToDecimal(n) + ". " + Icon(r.platform.GetOr("Unknown"))
      + " [" + r.title.GetOr("Untitled") + "](" + r.url.GetOr("#") + ")\n"
  }

  /** The lines for `rs`, numbered from `first`. */
  function Listing(rs: seq<SearchResult>, first: nat): string
    decreases |rs|
  {
    if rs == [] then "" else Line(first, rs[0]) + Listing(rs[1..], first + 1)
  }

  function Header(query: string): string {
    "🔎 **Results for '" + query + "'**\n\n"
  }

  /** The Markdown response for a non-empty result list: only the first ten are listed. */
  function Render(query: string, rs: seq<SearchResult>): string {
    Header(query) + Listing(rs[..Min(SHOWN, |rs|)], 1)
  }

  /** Listing two blocks is listing the first, then the second numbered on from it. */
  lemma {:induction false} ListingAppend(a: seq<SearchResult>, b: seq<SearchResult>, first: nat)
    ensures Listing(a + b, first) == Listing(a, first) + Listing(b, first + |a|)
    decreases |a|
  {
    if a == [] {
      assert a + b == b;
    } else {
      assert (a + b)[0] == a[0];
      assert (a + b)[1..] == a[1..] + b;
      ListingAppend(a[1..], b, first + 1);
    }
  }

  /** The response lists the shown results in order: result `i` is line `i + 1`,
      preceded by the lines of the results before it and followed by the rest. */
  lemma RenderedInOrder(query: string, rs: seq<SearchResult>, i: nat)
    requires i < Min(SHOWN, |rs|)
    ensures Render(query, rs) ==
              Header(query) + (Listing(rs[..i], 1) + (Line(i + 1, rs[i]) + Listing(rs[i + 1..Min(SHOWN, |rs|)], i + 2)))
  {
    var n := Min(SHOWN, |rs|);
    var rest := [rs[i]] + rs[i + 1..n];
    assert rs[..n] == rs[..i] + rest;
    ListingAppend(rs[..i], rest, 1);
    assert rest[1..] == rs[i + 1..n];
    assert Listing(rest, i + 1) == Line(i + 1, rs[i]) + Listing(rs[i + 1..n], i + 2);
  }

  /** Results past the tenth never reach the response. */
  lemma RenderIgnoresTail(query: string, rs: seq<SearchResult>, extra: seq<SearchResult>)
    requires |rs| >= SHOWN
    ensures Render(query, rs + extra) == Render(query, rs)
  {
    assert (rs + extra)[..SHOWN] == rs[..SHOWN];
  }

  /** Neither the title nor the url of `r` breaks its line. */
  predicate OneLine(r: SearchResult) {
    '\n' !in r.title.GetOr("Untitled") && '\n' !in r.url.GetOr("#")
  }

  predicate SingleLine(rs: seq<SearchResult>) {
    forall i :: 0 <= i < |rs| ==> OneLine(rs[i])
  }

  /** A line holds exactly one line break, its last character. */
  lemma LineNewlines(n: nat, r: SearchResult)
    requires OneLine(r)
    ensures multiset(Line(n, r))['\n'] == 1
  {
    var digits := NatToDecimal(n);
    assert '\n' !in digits by {
      assert AllDigits(digits);
    }
    var icon := Icon(r.platform.GetOr("Unknown"));
    var title := r.title.GetOr("Untitled");
    var url := r.url.GetOr("#");
    var m1 := digits + ". ";
    assert multiset(m1)['\n'] == 0;
    var m2 := m1 + icon;
    assert multiset(m2)['\n'] == multiset(m1)['\n'] + multiset(icon)['\n'] == 0;
    var m3 := m2 + " [";
    assert multiset(m3)['\n'] == 0;
    var m4 := m3 + title;
    assert multiset(m4)['\n'] == multiset(m3)['\n'] + multiset(title)['\n'] == 0;
    var m5 := m4 + "](";
    assert multiset(m5)['\n'] == 0;
    var m6 := m5 + url;
    assert multiset(m6)['\n'] == multiset(m5)['\n'] + multiset(url)['\n'] == 0;
    assert Line(n, r) == m6 + ")\n";
    assert multiset(")\n")['\n'] == 1;
    assert multiset(m6 + ")\n")['\n'] == multiset(m6)['\n'] + multiset(")\n")['\n'];
  }

  /** A listing of single-line results has exactly one line per result. */
  lemma {:induction false} ListingLineCount(rs: seq<SearchResult>, first: nat)
    requires SingleLine(rs)
    ensures Occurrences(Listing(rs, first), '\n') == |rs|
    decreases |rs|
  {
    if rs != [] {
      var head := Line(first, rs[0]);
      var tail := Listing(rs[1..], first + 1);
      assert SingleLine(rs[1..]) by {
        forall i | 0 <= i < |rs| - 1
          ensures OneLine(rs[1..][i])
        {
          assert rs[1..][i] == rs[i + 1];
        }
      }
      LineNewlines(first, rs[0]);
      ListingLineCount(rs[1..], first + 1);
      assert Listing(rs, first) == head + tail;
      assert multiset(head + tail) == multiset(head) + multiset(tail);
    }
  }

  /** The header is two lines, plus whatever line breaks the query carries. */
  lemma HeaderNewlines(query: string)
    ensures Occurrences(Header(query), '\n') == Occurrences(query, '\n') + 2
  {
    assert '\n' !in "🔎 **Results for '";
    assert multiset("'**\n\n")['\n'] == 2;
  }

  /** The rendered response has min(10, n) result lines after the two header lines
      (plus any line breaks inside the query itself). */
  lemma RenderLineCount(query: string, rs: seq<SearchResult>)
    requires SingleLine(rs)
    ensures Occurrences(Render(query, rs), '\n') == Occurrences(query, '\n') + 2 + Min(SHOWN, |rs|)
  {
    var shown := rs[..Min(SHOWN, |rs|)];
    ListingLineCount(shown, 1);
    HeaderNewlines(query);
    assert Render(query, rs) == Header(query) + Listing(shown, 1);
  }

  function Searching(query: string): string {
    "🔍 Searching for '" + query + "'..."
  }

  /** The plain-text retry: a fixed warning, then the same response without any `*`. */
  function Fallback(response: string): (f: string)
    ensures StartsWith(f, FALLBACK_PREFIX)
    ensures '*' !in f
    ensures f[|FALLBACK_PREFIX|..] == RemoveAll(response, '*')
    ensures multiset(f[|FALLBACK_PREFIX|..]) == multiset(response)['*' := 0]
  {
    var prefix := FALLBACK_PREFIX;
    var rest := RemoveAll(response, '*');
    assert '*' !in prefix;
    assert (prefix + rest)[..|prefix|] == prefix;
    assert (prefix + rest)[|prefix|..] == rest;
    prefix + rest
  }

  /** A response without `*` is retried verbatim after the warning, and removal keeps
      the order of the surviving characters across any split of the response. */
  lemma FallbackKeepsOrder(response: string, a: string, b: string)
    requires response == a + b
    ensures Fallback(response) == FALLBACK_PREFIX + (RemoveAll(a, '*') + RemoveAll(b, '*'))
    ensures '*' !in response ==> Fallback(response) == FALLBACK_PREFIX + response
  {
    var f := Fallback(response);
    var p := FALLBACK_PREFIX;
    StartsWithSplit(f, p);
    assert f == p + RemoveAll(response, '*');
    RemoveAllAppend(a, b, '*');
    if '*' !in response {
      RemoveAllAbsent(response, '*');
    }
  }

  /** The replies to a non-empty query once its results are in and `response` holds
      their rendering: the searching notice, then either the "no results" notice or
      the Markdown response, and one plain-text retry exactly when the transport
      rejected the Markdown. */
  function Respond(query: string, found: bool, response: string, markdownDelivered: bool): (msgs: seq<Outbound>)
    ensures 2 <= |msgs| <= 3 && msgs[0] == Reply(Searching(query))
    ensures !found ==> msgs == [Reply(Searching(query)), Reply(NO_RESULTS)]
    ensures found ==> msgs[1] == ReplyMarkdown(response)
    ensures found ==> (|msgs| == 2 <==> markdownDelivered)
    ensures |msgs| == 3 ==> msgs[2] == Reply(Fallback(response)) && '*' !in msgs[2].text
  {
    var searching := Reply(Searching(query));
    if !found then [searching, Reply(NO_RESULTS)]
    else if markdownDelivered then [searching, ReplyMarkdown(response)]
    else [searching, ReplyMarkdown(response), Reply(Fallback(response))]
  }

  /** What handling one search request did. */
  datatype SearchReply = SearchReply(messages: seq<Outbound>, backends: Collected)

  /** `_handle_search(query)`: an empty query sends nothing and asks no backend;
      otherwise the registered backends are asked and the replies follow `Respond`.
      `markdownDelivered` says whether the transport accepted the Markdown reply. */
  function HandleSearch(query: string, reg: Registry, be: Backends, markdownDelivered: bool): (r: SearchReply)
    ensures query == "" ==> r.messages == [] && NoCalls(r.backends)
    ensures query != "" ==> r.backends == Collect(query, reg, be)
    ensures query != "" ==>
              r.messages == Respond(query, r.backends.results != [], Render(query, r.backends.results), markdownDelivered)
  {
    if query == "" then SearchReply([], Collected([], [], [], []))
    else
      var c := Collect(query, reg, be);
      SearchReply(Respond(query, c.results != [], Render(query, c.results), markdownDelivered), c)
  }

  /** A search for "iris" where only Kaggle has something lists exactly that one dataset,
      as entry number 1 linking to its url. */
  lemma IrisExample(be: Backends)
    requires be.kaggle(Kaggle.Request("iris")) ==
               Kaggle.Listed([Kaggle.Dataset(Some("owner/iris"), Some("iris-dataset"), Some("https://example.org/a/iris"))])
    requires be.hf(HuggingFace.Request(HuggingFace.HfService(None), "iris", DEFAULT_MAX_RESULTS)) == HuggingFace.Listed([])
    requires forall req :: be.github(req) == GitHub.Json(Some([]))
    ensures var reg := Registry(Some(Kaggle.Connect(true)), Some(HuggingFace.HfService(None)), Some(GitHub.GitHubService(None)));
            HandleSearch("iris", reg, be, true).messages ==
              [Reply(Searching("iris")),
               ReplyMarkdown(Header("iris") + ("1" + ". " + KAGGLE_ICON + " [" + "iris-dataset" + "](" + "https://example.org/a/iris" + ")\n"))]
  {
    var reg := Registry(Some(Kaggle.Connect(true)), Some(HuggingFace.HfService(None)), Some(GitHub.GitHubService(None)));
    var found := Kaggle.ToResult(Kaggle.Dataset(Some("owner/iris"), Some("iris-dataset"), Some("https://example.org/a/iris")));
    assert KaggleShare("iris", reg, be).results == [found];
    assert HfShare("iris", reg, be).results == [];
    assert GitHubShare("iris", reg, be).results == [];
    var c := Collect("iris", reg, be);
    assert c.results == [found];
    assert Icon(KAGGLE) == KAGGLE_ICON;
    assert NatToDecimal(1) == "1";
    assert Listing([found], 1) == Line(1, found) + Listing([], 2);
    assert [found][..Min(SHOWN, 1)] == [found];
    assert Render("iris", c.results) == Header("iris") + Line(1, found);
  }
}

=== FILE: base.dfy ===
/** Small shared vocabulary: an optional value and raw bytes. */
module Base {

  /** A value that may be absent: a missing dictionary key, a missing attribute, a failed step. */
  datatype Option<+T> = None | Some(value: T) {

    /** The value, or `default` when absent (Python's `d.get(key, default)`). */
    function GetOr(default: T): T {
      match this
      case Some(v) => v
      case None => default
    }
  }

  newtype byte = b: int | 0 <= b < 256

  /** File contents. */
  type Bytes = seq<byte>

  function Min(a: int, b: int): int {
    if a <= b then a else b
  }

  function Max(a: int, b: int): int {
    if a <= b then b else a
  }
}

=== FILE: bundle.dfy ===
/** The MLparset pipeline of the handler: select the staging directory's regular,
    non-zip files, write them into a freshly named temporary zip (skipping files that
    cannot be read), send it with a caption, and remove the temporary zip on every
    path. The staging directory is only ever read. */
module Bundle {
  import opened Base
  import opened Text
  import opened FileSystem
  import opened Chat

  const DIR_MISSING: string := "❌ Temp directory is missing."
  const EMPTY: string := "📂 Temp folder is empty. No files to send."
  const COMPRESSING: string := "📦 Compressing content..."
  const UPLOADING: string := "📤 Uploading bundle..."
  const ERROR: string := "❌ Error processing request. Please try again."
  const BUNDLE_FILENAME: string := "ml_datasets_bundle.zip"
  const ZIP_SUFFIX: string := ".zip"

  /** One name in the staging directory as `os.listdir` reports it. */
  datatype DirEntry = DirEntry(name: string, node: Node)

  /** The staging directory as listed, in listing order (`None` if it does not exist),
      and the names of the files in the system's temporary area. */
  datatype World = World(staging: Option<seq<DirEntry>>, temp: set<string>)

  /** What the environment decides during one run: the name `tempfile` hands out
      (`None` if it raises), whether writing the zip as a whole succeeds, whether the
      "uploading" status edit succeeds, whether the upload succeeds, and whether the
      final `os.remove` succeeds. */
  datatype Oracles = Oracles(freshName: Option<string>, archiveOk: bool, editOk: bool, uploadOk: bool, removeOk: bool)

  datatype Outcome = DirMissing | NothingToBundle | Sent(count: nat, archive: seq<ArchiveEntry>) | Failed

  datatype BundleReply = BundleReply(outcome: Outcome, messages: seq<Outbound>, world: World)

  /** A listed entry is bundled when it is a regular file whose name does not end in `.zip`. */
  predicate Eligible(e: DirEntry) {
    e.node.File? && !EndsWith(e.name, ZIP_SUFFIX)
  }

  /** The list comprehension choosing `files_to_zip`. */
  function Select(entries: seq<DirEntry>): (sel: seq<DirEntry>)
    ensures |sel| <= |entries|
    ensures forall e :: e in sel <==> e in entries && Eligible(e)
    ensures forall i :: 0 <= i < |sel| ==> Eligible(sel[i])
  {
    if entries == [] then []
    else if Eligible(entries[0]) then [entries[0]] + Select(entries[1..])
    else Select(entries[1..])
  }

  /** Selection keeps the listing order: selecting from two listings one after the
      other is selecting from their concatenation. */
  lemma {:induction false} SelectAppend(a: seq<DirEntry>, b: seq<DirEntry>)
    ensures Select(a + b) == Select(a) + Select(b)
  {
    if a == [] {
      assert a + b == b;
    } else {
      assert (a + b)[0] == a[0];
      assert (a + b)[1..] == a[1..] + b;
      SelectAppend(a[1..], b);
    }
  }

  /** Every selected entry is a regular file. */
  predicate AllFiles(sel: seq<DirEntry>) {
    forall i :: 0 <= i < |sel| ==> sel[i].node.File?
  }

  /** The zip written from the selected files, in order: each readable file under its
      own name, each file whose write raises skipped. */
  function WriteArchive(sel: seq<DirEntry>): (archive: seq<ArchiveEntry>)
    requires AllFiles(sel)
    ensures |archive| <= |sel|
    ensures forall e :: e in sel && e.node.readable ==> ArchiveEntry(e.name, e.node.data) in archive
    ensures forall a :: a in archive ==> DirEntry(a.arcname, File(a.data, true)) in sel
  {
    if sel == [] then []
    else
      assert forall i :: 0 <= i < |sel| - 1 ==> sel[1..][i] == sel[i + 1];
      var rest := WriteArchive(sel[1..]);
      assert forall e :: e in sel[1..] ==> e in sel;
      if sel[0].node.readable then [ArchiveEntry(sel[0].name, sel[0].node.data)] + rest else rest
  }

  /** The zip is written file by file in selection order: writing two selections one
      after the other is writing their concatenation, so entry order and multiplicity
      follow the selection. */
  lemma {:induction false} WriteArchiveAppend(a: seq<DirEntry>, b: seq<DirEntry>)
    requires AllFiles(a) && AllFiles(b)
    ensures AllFiles(a + b)
    ensures WriteArchive(a + b) == WriteArchive(a) + WriteArchive(b)
  {
    assert forall i :: 0 <= i < |a + b| ==> (a + b)[i] == if i < |a| then a[i] else b[i - |a|];
    if a == [] {
      assert a + b == b;
    } else {
      assert (a + b)[1..] == a[1..] + b;
      assert AllFiles(a[1..]) by {
        assert forall i :: 0 <= i < |a| - 1 ==> a[1..][i] == a[i + 1];
      }
      WriteArchiveAppend(a[1..], b);
    }
  }

  function Caption(count: nat): string {
    "📦 **MLparset Dump**\n✅ Files: " + NatToDecimal(count)
  }

  /** `_handle_mlparset`. `tempfile` is trusted to hand out a name not already in use. */
  function HandleBundle(w: World, o: Oracles): (r: BundleReply)
    requires o.freshName.Some? ==> o.freshName.value !in w.temp
    ensures r.world.staging == w.staging
    ensures o.removeOk || o.freshName.None? ==> r.world.temp == w.temp
    ensures r.world.temp - w.temp <= (if o.freshName.Some? then {o.freshName.value} else {})
    ensures r.outcome.DirMissing? <==> w.staging.None?
    ensures r.outcome.DirMissing? ==> r.messages == [Reply(DIR_MISSING)]
    ensures r.outcome.NothingToBundle? <==>
              w.staging.Some? && forall e :: e in w.staging.value ==> !Eligible(e)
    ensures r.outcome.NothingToBundle? ==> r.messages == [Reply(EMPTY)]
    ensures r.outcome.Sent? <==>
              && w.staging.Some? && Select(w.staging.value) != []
              && o.freshName.Some? && o.archiveOk && o.editOk && o.uploadOk
    ensures r.outcome.Sent? ==>
              && r.outcome.count == |Select(w.staging.value)|
              && |r.outcome.archive| <= r.outcome.count
              && r.messages == [Reply(COMPRESSING), EditStatus(UPLOADING),
                                ReplyDocument(Caption(r.outcome.count), BUNDLE_FILENAME, r.outcome.archive)]
    ensures r.outcome.DirMissing? || r.outcome.NothingToBundle? ==> r.world == w
    ensures r.outcome.Sent? ==> r.outcome.archive == WriteArchive(Select(w.staging.value))
    ensures w.staging.Some? && Select(w.staging.value) != [] && (o.freshName.None? || !o.archiveOk || !o.editOk) ==>
              r.outcome.Failed? && r.messages == [Reply(COMPRESSING), EditStatus(ERROR)]
    ensures w.staging.Some? && Select(w.staging.value) != [] && o.freshName.Some? && o.archiveOk && o.editOk && !o.uploadOk ==>
              r.outcome.Failed? && r.messages == [Reply(COMPRESSING), EditStatus(UPLOADING),
                ReplyDocument(Caption(|Select(w.staging.value)|), BUNDLE_FILENAME, WriteArchive(Select(w.staging.value))),
                EditStatus(ERROR)]
    ensures r.outcome.Failed? ==> |r.messages| >= 2 && r.messages[0] == Reply(COMPRESSING) && r.messages[|r.messages| - 1] == EditStatus(ERROR)
  {
    match w.staging
    case None => BundleReply(DirMissing, [Reply(DIR_MISSING)], w)
    case Some(entries) =>
      var sel := Select(entries);
      if sel == [] then
        assert forall e :: e in entries ==> !Eligible(e);
        BundleReply(NothingToBundle, [Reply(EMPTY)], w)
      else
        assert sel[0] in entries && Eligible(sel[0]);
        match o.freshName
        case None => BundleReply(Failed, [Reply(COMPRESSING), EditStatus(ERROR)], w)
        case Some(zipPath) =>
          // the temporary file exists from here until the cleanup in `finally`
          var after := if o.removeOk then w.temp else w.temp + {zipPath};
          var world := World(w.staging, after);
          if !o.archiveOk || !o.editOk then
            // the status edit that failed was never delivered; no upload is attempted
            BundleReply(Failed, [Reply(COMPRESSING), EditStatus(ERROR)], world)
          else
            var archive := WriteArchive(sel);
            var upload := ReplyDocument(Caption(|sel|), BUNDLE_FILENAME, archive);
            if !o.uploadOk then
              BundleReply(Failed, [Reply(COMPRESSING), EditStatus(UPLOADING), upload, EditStatus(ERROR)], world)
            else
              BundleReply(Sent(|sel|, archive), [Reply(COMPRESSING), EditStatus(UPLOADING), upload], world)
  }

  /** A staging directory holding only zips (or nothing regular) has nothing to bundle. */
  lemma OnlyArchivesMeansNothingToBundle(w: World, o: Oracles)
    requires o.freshName.Some? ==> o.freshName.value !in w.temp
    requires w.staging.Some?
    requires forall e :: e in w.staging.value ==> e.node.File? ==> EndsWith(e.name, ZIP_SUFFIX)
    ensures HandleBundle(w, o).outcome == NothingToBundle
  {
  }

  /** A sent bundle holds every readable regular non-zip file of the directory under
      its own name, and nothing else: never a directory, never a pre-existing zip. */
  lemma SentArchiveContents(w: World, o: Oracles)
    requires o.freshName.Some? ==> o.freshName.value !in w.temp
    requires HandleBundle(w, o).outcome.Sent?
    ensures var archive := HandleBundle(w, o).outcome.archive;
            && (forall e :: e in w.staging.value && Eligible(e) && e.node.readable ==>
                  ArchiveEntry(e.name, e.node.data) in archive)
            && (forall a :: a in archive ==>
                  DirEntry(a.arcname, File(a.data, true)) in w.staging.value && !EndsWith(a.arcname, ZIP_SUFFIX))
  {
    var sel := Select(w.staging.value);
    assert HandleBundle(w, o).outcome.archive == WriteArchive(sel);
  }

  /** The caption counts the files selected, not the files written: with one of two
      files unreadable the caption still says 2 while the zip holds one entry. */
  lemma CaptionCountsSelection(o: Oracles)
    requires o.freshName == Some("tmp1.zip") && o.archiveOk && o.editOk && o.uploadOk
    ensures var w := World(Some([DirEntry("a.csv", File([1], true)), DirEntry("b.csv", File([2], false))]), {});
            var r := HandleBundle(w, o);
            r.outcome.Sent? && r.outcome.count == 2 && r.outcome.archive == [ArchiveEntry("a.csv", [1])]
  {
    var entries := [DirEntry("a.csv", File([1], true)), DirEntry("b.csv", File([2], false))];
    assert !EndsWith("a.csv", ZIP_SUFFIX) by { assert "a.csv"[1..] != ZIP_SUFFIX; }
    assert !EndsWith("b.csv", ZIP_SUFFIX) by { assert "b.csv"[1..] != ZIP_SUFFIX; }
    assert Select(entries) == entries by {
      assert entries[1..] == [entries[1]];
      assert [entries[1]][1..] == [];
    }
    assert WriteArchive(entries) == [ArchiveEntry("a.csv", [1])] by {
      assert entries[1..] == [entries[1]];
      assert [entries[1]][1..] == [];
    }
  }
}

=== FILE: chat.dfy ===
/** What the bot sends back over the chat transport, in the order it sends it. */
module Chat {
  import opened FileSystem

  /** One call into the transport: `reply_text`, `reply_markdown`, `edit_text` on the
      status message, or `reply_document` with an attached zip archive. */
  datatype Outbound =
    | Reply(text: string)
    | ReplyMarkdown(text: string)
    | EditStatus(text: string)
    | ReplyDocument(caption: string, filename: string, archive: seq<ArchiveEntry>)
}

=== FILE: file_manager.dfy ===
/** The file utilities: splitting a large file into numbered parts, removing a list of
    paths, and zipping a directory tree under relative names. */
module FileManager {
  import opened Base
  import opened Text
  import opened FileSystem

  /** What a successful `f.read(limit)` returns from the unread `rest`: everything for
      `-1`, otherwise at most `limit` bytes. A buffered reader raises `ValueError` for a
      size below `-1`, so such a read never returns. */
  function ReadBlock(rest: Bytes, limit: int): (block: Bytes)
    requires limit >= -1
    ensures |block| <= |rest| && block == rest[..|block|]
    ensures limit == -1 ==> block == rest
    ensures 0 <= limit ==> |block| == Min(limit, |rest|)
  {
    if limit == -1 then rest else rest[..Min(limit, |rest|)]
  }

  /** The blocks the read loop collects before the first empty read: none of them
      empty, and with a positive limit all full-sized except possibly the last. */
  function Blocks(data: Bytes, limit: int): (blocks: seq<Bytes>)
    requires limit >= -1
    ensures forall i :: 0 <= i < |blocks| ==> blocks[i] != []
    ensures limit == 0 ==> blocks == []
    ensures limit > 0 ==> forall i :: 0 <= i < |blocks| ==> |blocks[i]| <= limit
    ensures limit > 0 ==> forall i :: 0 <= i < |blocks| - 1 ==> |blocks[i]| == limit
    decreases |data|
  {
    var block := ReadBlock(data, limit);
    if block == [] then []
    else
      var rest := Blocks(data[|block|..], limit);
      assert forall i :: 1 <= i < 1 + |rest| ==> ([block] + rest)[i] == rest[i - 1];
      [block] + rest
  }

  /** With a positive limit, or `-1`, the blocks, in order, are the whole file. */
  lemma {:induction false} BlocksFlatten(data: Bytes, limit: int)
    requires limit > 0 || limit == -1
    ensures Flatten(Blocks(data, limit)) == data
    decreases |data|
  {
    var block := ReadBlock(data, limit);
    if block != [] {
      BlocksFlatten(data[|block|..], limit);
      assert Blocks(data, limit)[1..] == Blocks(data[|block|..], limit);
      assert data == block + data[|block|..];
    }
  }

  /** With a positive limit there are ceil(size / limit) blocks. */
  lemma {:induction false} BlocksCount(data: Bytes, limit: int)
    requires limit > 0
    ensures |Blocks(data, limit)| == (|data| + limit - 1) / limit
    decreases |data|
  {
    var block := ReadBlock(data, limit);
    if block == [] {
      DivByBounds(limit - 1, limit, 0);
    } else {
      BlocksCount(data[|block|..], limit);
      CeilStep(|data|, limit);
    }
  }

  /** With the limit `-1` a non-empty file is one block. */
  lemma BlocksWhole(data: Bytes, limit: int)
    requires limit == -1 && data != []
    ensures Blocks(data, limit) == [data]
  {
    assert Blocks(data[|data|..], limit) == [];
  }

  lemma MulMonotone(a: int, b: int, d: int)
    requires a <= b && 0 < d
    ensures a * d <= b * d
  {
    assert b * d - a * d == (b - a) * d;
  }

  /** Euclidean division is pinned down by bounds: `k * d <= x < (k + 1) * d` means `x / d == k`. */
  lemma DivByBounds(x: int, d: int, k: int)
    requires 0 < d && k * d <= x < k * d + d
    ensures x / d == k
  {
    var q, r := x / d, x % d;
    assert x == q * d + r && 0 <= r < d;
    if q < k {
      assert (q + 1) * d == q * d + d;
      MulMonotone(q + 1, k, d);
    } else if q > k {
      assert (k + 1) * d == k * d + d;
      MulMonotone(k + 1, q, d);
    }
  }

  /** Taking one full-or-final block off `n` bytes leaves one block fewer to read. */
  lemma CeilStep(n: nat, limit: int)
    requires 0 < limit && 0 < n
    ensures (n + limit - 1) / limit == 1 + (n - Min(limit, n) + limit - 1) / limit
  {
    if n >= limit {
      var k := (n - 1) / limit;
      assert k * limit <= n - 1 < k * limit + limit;
      DivByBounds(n + limit - 1, limit, k + 1);
    } else {
      DivByBounds(n + limit - 1, limit, 1);
      DivByBounds(limit - 1, limit, 0);
    }
  }

  /** The concatenation of the blocks, in order. */
  function Flatten(blocks: seq<Bytes>): Bytes {
    if blocks == [] then [] else blocks[0] + Flatten(blocks[1..])
  }

  /** The name of the `n`-th part (counting from 1). */
  function PartName(path: string, n: nat): string {
    path + ".part" + NatToDecimal(n)
  }

  /** Distinct part numbers give distinct part names. */
  lemma PartNamesDistinct(path: string, m: nat, n: nat)
    requires PartName(path, m) == PartName(path, n)
    ensures m == n
  {
    var prefix := path + ".part";
    assert PartName(path, m)[|prefix|..] == NatToDecimal(m);
    assert PartName(path, n)[|prefix|..] == NatToDecimal(n);
    DecimalInjective(m, n);
  }

  /** One part written to disk. */
  datatype Part = Part(name: string, data: Bytes)

  /** The result of a split: the list of paths returned, and the part files left on
      disk (which stay even when a later write fails and `[]` is returned). A file
      whose size cannot be read makes the call raise. */
  datatype SplitOutcome = SizeRaised | Split(paths: seq<string>, written: seq<Part>)

  /** `split_large_file(file_path, limit_bytes)`. `file` is the content, `None` when
      `os.path.getsize` raises; `failingWrite` is the 0-based index of the first part
      whose write raises, if any. */
  function SplitLargeFile(path: string, file: Option<Bytes>, limit: int, failingWrite: Option<nat>): (r: SplitOutcome)
    ensures file.None? <==> r.SizeRaised?
    ensures file.Some? && |file.value| <= limit ==> r == Split([path], [])
    ensures file.Some? && limit < -1 ==> r == Split([], [])
    ensures r.Split? && |file.value| > limit && limit >= -1 ==>
              var blocks := Blocks(file.value, limit);
              && |r.written| <= |blocks|
              && (forall i :: 0 <= i < |r.written| ==> r.written[i] == Part(PartName(path, i + 1), blocks[i]))
              && (failingWrite.None? || failingWrite.value >= |blocks| <==> |r.written| == |blocks|)
              && (|r.written| == |blocks| ==> r.paths == seq(|blocks|, i requires 0 <= i < |blocks| => PartName(path, i + 1)))
              && (|r.written| < |blocks| ==> r.paths == [] && |r.written| == failingWrite.value)
  {
    match file
    case None => SizeRaised
    case Some(data) =>
      if |data| <= limit then Split([path], [])
      else if limit < -1 then Split([], [])  // the first read raises; nothing is written
      else
        var blocks := Blocks(data, limit);
        var parts := seq(|blocks|, i requires 0 <= i < |blocks| => Part(PartName(path, i + 1), blocks[i]));
        if failingWrite.Some? && failingWrite.value < |blocks| then Split([], parts[..failingWrite.value])
        else Split(seq(|blocks|, i requires 0 <= i < |blocks| => PartName(path, i + 1)), parts)
  }

  /** Splitting with a positive limit loses nothing: when every write succeeds the
      parts, read in order, give back the file, each part holds at most `limit` bytes
      and all but the last exactly `limit`, and there are ceil(size / limit) of them. */
  lemma SplitRoundTrip(path: string, data: Bytes, limit: int)
    requires 0 < limit < |data|
    ensures var r := SplitLargeFile(path, Some(data), limit, None);
            && r.Split?
            && |r.paths| == |r.written| == (|data| + limit - 1) / limit
            && Flatten(seq(|r.written|, i requires 0 <= i < |r.written| => r.written[i].data)) == data
            && (forall i :: 0 <= i < |r.written| ==> 0 < |r.written[i].data| <= limit)
            && (forall i :: 0 <= i < |r.written| - 1 ==> |r.written[i].data| == limit)
  {
    var r := SplitLargeFile(path, Some(data), limit, None);
    var blocks := Blocks(data, limit);
    BlocksFlatten(data, limit);
    BlocksCount(data, limit);
    assert seq(|r.written|, i requires 0 <= i < |r.written| => r.written[i].data) == blocks;
  }

  /** With a zero limit a non-empty file reads back nothing at once: no part, no path. */
  lemma SplitZeroLimit(path: string, data: Bytes, failingWrite: Option<nat>)
    requires data != []
    ensures SplitLargeFile(path, Some(data), 0, failingWrite) == Split([], [])
  {
  }

  /** With the limit `-1` a non-empty file is read whole into a single first part. */
  lemma SplitNegativeLimit(path: string, data: Bytes, limit: int)
    requires limit == -1 && data != []
    ensures SplitLargeFile(path, Some(data), limit, None) == Split([PartName(path, 1)], [Part(PartName(path, 1), data)])
  {
    BlocksWhole(data, limit);
  }

  /** A limit below `-1` makes the first read raise: whatever the file, `[]` is
      returned and no part is written. */
  lemma SplitInvalidLimit(path: string, data: Bytes, limit: int, failingWrite: Option<nat>)
    requires limit < -1
    ensures SplitLargeFile(path, Some(data), limit, failingWrite) == Split([], [])
  {
  }

  /** A successful step for `target` removes `p`: the file itself, or the directory
      and everything below it. */
  predicate Removes(fs: Fs, target: string, failing: set<string>, p: string) {
    && target !in failing && target in fs
    && ((fs[target].File? && p == target) || (fs[target].Directory? && (p == target || Below(p, target))))
  }

  /** `path` is removed by some successful step of the cleanup of `paths`, judged on
      the filesystem as it was before the cleanup began. */
  predicate RemovedBy(fs: Fs, paths: seq<string>, failing: set<string>, p: string) {
    exists i :: 0 <= i < |paths| && Removes(fs, paths[i], failing, p)
  }

  /** One step of `cleanup`: a directory goes with everything below it, a file goes
      alone, anything else (or a missing path) stays; a removal that raises changes
      nothing. */
  function RemovePath(fs: Fs, path: string, failing: set<string>): (next: Fs)
    ensures forall p :: p in next <==> p in fs && !Removes(fs, path, failing, p)
    ensures forall p :: p in next ==> next[p] == fs[p]
  {
    if path in failing || path !in fs then fs
    else if fs[path].Directory? then map p | p in fs && p != path && !Below(p, path) :: fs[p]
    else if fs[path].File? then map p | p in fs && p != path :: fs[p]
    else fs
  }

  /** `cleanup(paths)`: every path is tried in order; a failure on one does not stop
      the rest. What remains is exactly what no successful step removed, unchanged. */
  function Cleanup(fs: Fs, paths: seq<string>, failing: set<string>): (after: Fs)
    ensures forall p :: p in after ==> p in fs && after[p] == fs[p]
    ensures forall p :: p in fs ==> (p in after <==> !RemovedBy(fs, paths, failing, p))
    decreases |paths|
  {
    if paths == [] then fs
    else
      var next := RemovePath(fs, paths[0], failing);
      var after := Cleanup(next, paths[1..], failing);
      forall p | p in fs
        ensures p in after <==> !RemovedBy(fs, paths, failing, p)
      {
        if RemovedBy(fs, paths, failing, p) {
          var i :| 0 <= i < |paths| && Removes(fs, paths[i], failing, p);
          CleanupStepGone(fs, paths, failing, next, after, p, i);
        } else {
          CleanupStepKept(fs, paths, failing, next, after, p);
        }
      }
      after
  }

  /** Whatever goes with a removed directory's member goes with the directory. */
  lemma RemovalCovers(fs: Fs, d: string, t: string, failing: set<string>, p: string)
    ensures Removes(fs, d, failing, t) && Removes(fs, t, failing, p) ==> Removes(fs, d, failing, p)
  {
    if Removes(fs, d, failing, t) && Removes(fs, t, failing, p) && t != d && p != t {
      BelowTransitive(p, t, d);
    }
  }

  /** A path some step removes, judged on the original filesystem, is gone after the
      first step followed by the rest. */
  lemma CleanupStepGone(fs: Fs, paths: seq<string>, failing: set<string>, next: Fs, after: Fs, p: string, i: nat)
    requires i < |paths| && Removes(fs, paths[i], failing, p)
    requires next == RemovePath(fs, paths[0], failing)
    requires forall q :: q in after ==> q in next
    requires forall q :: q in next ==> (q in after <==> !RemovedBy(next, paths[1..], failing, q))
    ensures p !in after
  {
    if !Removes(fs, paths[0], failing, p) {
      var t := paths[i];
      RemovalCovers(fs, paths[0], t, failing, p);
      assert t in next;
      assert paths[1..][i - 1] == t;
      assert Removes(next, paths[1..][i - 1], failing, p);
    }
  }

  /** A path no step removes survives the first step followed by the rest. */
  lemma CleanupStepKept(fs: Fs, paths: seq<string>, failing: set<string>, next: Fs, after: Fs, p: string)
    requires paths != [] && p in fs && !RemovedBy(fs, paths, failing, p)
    requires next == RemovePath(fs, paths[0], failing)
    requires forall q :: q in next ==> (q in after <==> !RemovedBy(next, paths[1..], failing, q))
    ensures p in after
  {
    assert !Removes(fs, paths[0], failing, p);
    forall j | 0 <= j < |paths| - 1
      ensures !Removes(next, paths[1..][j], failing, p)
    {
      assert paths[1..][j] == paths[j + 1];
      assert !Removes(fs, paths[j + 1], failing, p);
    }
  }

  /** A directory path is removed together with everything below it, unless it raises. */
  lemma CleanupRemovesDirectoryTree(fs: Fs, paths: seq<string>, failing: set<string>, i: nat, p: string)
    requires i < |paths| && paths[i] in fs && fs[paths[i]].Directory? && paths[i] !in failing
    requires p in fs && Below(p, paths[i])
    ensures p !in Cleanup(fs, paths, failing)
  {
    assert Removes(fs, paths[i], failing, p);
  }

  /** Result of `zip_directory(dir_path, output_name)`: where the zip was written and
      what it holds, arcname to contents. */
  datatype Zipped = Zipped(zipPath: string, entries: map<string, Bytes>)

  /** The files `os.walk` reports below `dir`: every non-directory path under it. */
  predicate Walked(fs: Fs, dir: string, p: string) {
    p in fs && Below(p, dir) && !fs[p].Directory?
  }

  /** Every walked path can be written: it is a readable regular file. */
  predicate AllWritable(fs: Fs, dir: string) {
    forall p :: p in fs && Walked(fs, dir, p) ==> fs[p].File? && fs[p].readable
  }

  /** `zip_directory`: the zip at `tempDir/output_name.zip` holds every file below
      `dirPath` under its path relative to `dirPath`; any error (an unreadable or
      special file, a failed write of the zip, signalled by `zipWriteOk`) gives `None`.
      A directory that does not exist walks as empty. */
  function ZipDirectory(fs: Fs, dirPath: string, outputName: string, tempDir: string, zipWriteOk: bool): (r: Option<Zipped>)
    ensures r.Some? <==> zipWriteOk && AllWritable(fs, dirPath)
    ensures r.Some? ==> r.value.zipPath == JoinPath(tempDir, outputName + ".zip")
    ensures r.Some? ==> forall name :: name in r.value.entries <==> Walked(fs, dirPath, JoinPath(dirPath, name))
    ensures r.Some? ==> forall name :: name in r.value.entries ==>
              JoinPath(dirPath, name) in fs && r.value.entries[name] == fs[JoinPath(dirPath, name)].data
  {
    if !zipWriteOk || !AllWritable(fs, dirPath) then None
    else
      var names := set p | p in fs && Walked(fs, dirPath, p) :: RelPath(p, dirPath);
      var entries := map name | name in names :: fs[JoinPath(dirPath, name)].data;
      assert forall name :: name in names <==> Walked(fs, dirPath, JoinPath(dirPath, name)) by {
        forall name
          ensures name in names <==> Walked(fs, dirPath, JoinPath(dirPath, name))
        {
          RelPathOfJoin(dirPath, name);
        }
      }
      Some(Zipped(JoinPath(tempDir, outputName + ".zip"), entries))
  }
}

=== FILE: filesystem.dfy ===
/** The abstract filesystem shared by the bundle pipeline and the file manager:
    slash-separated paths, nodes that are regular files, directories or anything
    else, and zip archives as lists of (archive name, contents) entries. */
module FileSystem {
  import opened Base
  import opened Text

  /** `os.path.isfile` holds exactly of `File`, `os.path.isdir` of `Directory`;
      `Special` is anything else (a socket, a dangling link). A file that cannot be
      opened for reading (locked, permission denied, gone) has `readable == false`. */
  datatype Node = File(data: Bytes, readable: bool) | Directory | Special

  /** A whole filesystem keyed by normalised path. */
  type Fs = map<string, Node>

  /** One member of a zip archive; DEFLATE compression itself is not modelled. */
  datatype ArchiveEntry = ArchiveEntry(arcname: string, data: Bytes)

  /** `os.path.join(dir, name)` for a relative `name` and a `dir` without trailing slash. */
  function JoinPath(dir: string, name: string): string {
    dir + "/" + name
  }

  /** `path` lies strictly below directory `dir`. */
  predicate Below(path: string, dir: string) {
    StartsWith(path, dir + "/")
  }

  /** `os.path.relpath(path, dir)` for a path below `dir`. */
  function RelPath(path: string, dir: string): (rel: string)
    requires Below(path, dir)
    ensures JoinPath(dir, rel) == path
  {
    path[|dir| + 1..]
  }

  /** Joining then taking the relative path gives back the name. */
  lemma RelPathOfJoin(dir: string, name: string)
    ensures Below(JoinPath(dir, name), dir)
    ensures RelPath(JoinPath(dir, name), dir) == name
  {
    assert JoinPath(dir, name)[..|dir| + 1] == dir + "/";
    assert JoinPath(dir, name)[|dir| + 1..] == name;
  }

  /** Everything below `dir + "/" + sub` is also below `dir`. */
  lemma BelowTransitive(path: string, mid: string, dir: string)
    requires Below(mid, dir) && Below(path, mid)
    ensures Below(path, dir)
  {
    assert path[..|dir| + 1] == path[..|mid| + 1][..|dir| + 1];
  }
}

=== FILE: github.dfy ===
/** The GitHub adapter: a topic-qualified repository search, one broadened retry when
    it finds nothing, strict item shaping, and every error turned into `[]`. */
module GitHub {
  import opened Base
  import opened SearchResults

  const SEARCH_URL: string := "https://api.github.com/search/repositories"
  const ACCEPT: string := "application/vnd.github.v3+json"
  const DATASET_TOPICS: string := " topic:dataset OR topic:data"
  const ML_TOPIC: string := " topic:machine-learning"

  /** The personal access token from the configuration, if any. */
  datatype GitHubService = GitHubService(token: Option<string>)

  /** One `GET` of the search endpoint: url, headers and query parameters. */
  datatype SearchRequest = SearchRequest(url: string, headers: map<string, string>, q: string,
                                         sort: string, order: string, perPage: int)

  /** A repository item; a key the item lacks is `None`. */
  datatype Item = Item(fullName: Option<string>, htmlUrl: Option<string>)

  /** What one request yields: an exception (network, HTTP status, undecodable body),
      or a JSON object whose `items` key is absent (`None`) or a list. */
  datatype SearchResponse = RequestFailed | Json(items: Option<seq<Item>>)

  /** The `Accept` header always; `Authorization` only for a non-empty token. */
  function Headers(svc: GitHubService): (h: map<string, string>)
    ensures h.Keys <= {"Accept", "Authorization"}
    ensures "Accept" in h && h["Accept"] == ACCEPT
    ensures "Authorization" in h <==> svc.token.Some? && svc.token.value != ""
    ensures "Authorization" in h ==> h["Authorization"] == "token " + svc.token.value
  {
    var base := map["Accept" := ACCEPT];
    if svc.token.Some? && svc.token.value != "" then base["Authorization" := "token " + svc.token.value]
    else base
  }

  function Request(svc: GitHubService, q: string, maxResults: int): SearchRequest {
    SearchRequest(SEARCH_URL, Headers(svc), q, "stars", "desc", maxResults)
  }

  /** `not data.get("items")`: the key is missing or its list is empty. */
  predicate FoundNothing(resp: SearchResponse) {
    resp.Json? && (resp.items.None? || resp.items.value == [])
  }

  predicate WellFormed(item: Item) {
    item.fullName.Some? && item.htmlUrl.Some?
  }

  /** Shaping the items in order; any item lacking a key raises, which loses them all. */
  function ShapeItems(items: seq<Item>): (r: Option<seq<SearchResult>>)
    ensures r.Some? <==> forall i :: 0 <= i < |items| ==> WellFormed(items[i])
    ensures r.Some? ==> |r.value| == |items|
    ensures r.Some? ==> forall i :: 0 <= i < |items| ==>
              r.value[i] == Entry(GITHUB, items[i].fullName.value, items[i].htmlUrl.value)
  {
    if items == [] then Some([])
    else if !WellFormed(items[0]) then None
    else
      match ShapeItems(items[1..])
      case None => None
      case Some(rest) => Some([Entry(GITHUB, items[0].fullName.value, items[0].htmlUrl.value)] + rest)
  }

  /** The list returned for the final response: its shaped items, or `[]` on any error. */
  function Shape(resp: SearchResponse): (r: seq<SearchResult>)
    ensures AllFrom(r, GITHUB)
    ensures resp.RequestFailed? || FoundNothing(resp) ==> r == []
    ensures r != [] ==> resp.Json? && resp.items.Some? && ShapeItems(resp.items.value) == Some(r)
    ensures resp.Json? && resp.items.Some? && ShapeItems(resp.items.value).Some? ==> r == ShapeItems(resp.items.value).value
  {
    match resp
    case RequestFailed => []
    case Json(None) => []
    case Json(Some(items)) => ShapeItems(items).GetOr([])
  }

  /** `search_repositories(query, max_results)`. */
  function Search(svc: GitHubService, query: string, maxResults: int,
                  api: SearchRequest -> SearchResponse): (s: Searched<SearchRequest>)
    ensures 1 <= |s.calls| <= 2
    ensures s.calls[0] == Request(svc, query + DATASET_TOPICS, maxResults)
    ensures |s.calls| == 2 <==> FoundNothing(api(s.calls[0]))
    ensures |s.calls| == 2 ==> s.calls[1] == Request(svc, query + ML_TOPIC, maxResults)
    ensures s.results == Shape(api(s.calls[|s.calls| - 1]))
    ensures AllFrom(s.results, GITHUB)
  {
    var first := Request(svc, query + DATASET_TOPICS, maxResults);
    var resp := api(first);
    if FoundNothing(resp) then
      var second := Request(svc, query + ML_TOPIC, maxResults);
      Searched([first, second], Shape(api(second)))
    else
      Searched([first], Shape(resp))
  }

  /** A single item without `full_name` or `html_url` empties the whole result,
      however many good items surround it. */
  lemma OneMalformedItemEmptiesAll(before: seq<Item>, bad: Item, after: seq<Item>)
    requires !WellFormed(bad)
    ensures Shape(Json(Some(before + [bad] + after))) == []
  {
    var items := before + [bad] + after;
    assert items[|before|] == bad;
  }

  /** When the topic-qualified search finds repositories the broadened one is never
      sent, and the answer is the first response's items. */
  lemma NoBroadeningOnHit(svc: GitHubService, query: string, maxResults: int,
                          api: SearchRequest -> SearchResponse, items: seq<Item>)
    requires api(Request(svc, query + DATASET_TOPICS, maxResults)) == Json(Some(items))
    requires items != [] && forall i :: 0 <= i < |items| ==> WellFormed(items[i])
    ensures Search(svc, query, maxResults, api).calls == [Request(svc, query + DATASET_TOPICS, maxResults)]
    ensures |Search(svc, query, maxResults, api).results| == |items|
  {
  }
}

=== FILE: huggingface.dfy ===
/** The HuggingFace adapter: one listing call, id-to-link shaping, errors become `[]`. */
module HuggingFace {
  import opened Base
  import opened Text
  import opened SearchResults

  const DATASETS_PAGE: string := "https://huggingface.co/datasets/"
  const UNKNOWN_ID: string := "Unknown"

  /** The token configured for the hub, if any. */
  datatype HfService = HfService(token: Option<string>)

  /** Arguments of `list_datasets(search=..., limit=..., token=..., sort=...)`. */
  datatype ListRequest = ListRequest(search: string, limit: int, token: Option<string>, sort: string)

  /** A dataset record; a missing `id` attribute is `None`. */
  datatype Dataset = Dataset(id: Option<string>)

  /** What listing does: raise (on the call or while iterating), or yield datasets in order. */
  datatype ListResponse = ListFailed | Listed(datasets: seq<Dataset>)

  function Request(svc: HfService, query: string, maxResults: int): ListRequest {
    ListRequest(query, maxResults, svc.token, "downloads")
  }

  /** Shaping one dataset: the title is its id and the url is the id's dataset page;
      a missing id reads as "Unknown" in both. */
  function ToResult(d: Dataset): (r: SearchResult)
    ensures Complete(r) && r.platform == Some(HUGGING_FACE)
    ensures r.title == Some(d.id.GetOr(UNKNOWN_ID))
    ensures StartsWith(r.url.value, DATASETS_PAGE) && r.url.value[|DATASETS_PAGE|..] == r.title.value
  {
    var id := d.id.GetOr(UNKNOWN_ID);
    Entry(HUGGING_FACE, id, DATASETS_PAGE + id)
  }

  /** `search_datasets(query, max_results)`: `max_results` travels to the hub as
      `limit` and is not enforced here. */
  function Search(svc: HfService, query: string, maxResults: int,
                  api: ListRequest -> ListResponse): (s: Searched<ListRequest>)
    ensures s.calls == [Request(svc, query, maxResults)]
    ensures AllFrom(s.results, HUGGING_FACE)
    ensures api(Request(svc, query, maxResults)).ListFailed? ==> s.results == []
    ensures api(Request(svc, query, maxResults)).Listed? ==>
              var ds := api(Request(svc, query, maxResults)).datasets;
              && |s.results| == |ds|
              && forall i :: 0 <= i < |ds| ==> s.results[i] == ToResult(ds[i])
  {
    var req := Request(svc, query, maxResults);
    match api(req)
    case ListFailed => Searched([req], [])
    case Listed(ds) => Searched([req], seq(|ds|, i requires 0 <= i < |ds| => ToResult(ds[i])))
  }

  /** Every HuggingFace result links to the dataset page named by its own title. */
  lemma UrlIsPageOfTitle(svc: HfService, query: string, maxResults: int,
                                            api: ListRequest -> ListResponse, i: nat)
    requires i < |Search(svc, query, maxResults, api).results|
    ensures var r := Search(svc, query, maxResults, api).results[i];
            r.url == Some(DATASETS_PAGE + r.title.value)
  {
    var r := Search(svc, query, maxResults, api).results[i];
    assert r == ToResult(api(Request(svc, query, maxResults)).datasets[i]);
    assert r.url.value == r.url.value[..|DATASETS_PAGE|] + r.url.value[|DATASETS_PAGE|..];
  }

  /** The hub, not the adapter, bounds the result count: a hub that ignores `limit`
      gets all of its datasets through. */
  lemma LimitNotEnforced(svc: HfService, query: string)
    ensures var api := (req: ListRequest) => Listed([Dataset(Some("a")), Dataset(None), Dataset(Some("c"))]);
            |Search(svc, query, 1, api).results| == 3
  {
  }
}

=== FILE: kaggle.dfy ===
/** The Kaggle adapter: an availability flag fixed at construction, a listing request,
    attribute defaults and the swallow-every-error policy. */
module Kaggle {
  import opened Base
  import opened Text
  import opened SearchResults

  const SITE: string := "https://www.kaggle.com/"

  /** `available` records whether `authenticate()` succeeded when the service was built. */
  datatype KaggleService = KaggleService(available: bool)

  /** Building the service: available exactly when authentication succeeded; it is never retried. */
  function Connect(authenticated: bool): (s: KaggleService)
    ensures s.available <==> authenticated
  {
    KaggleService(authenticated)
  }

  /** Arguments of `dataset_list(search=..., sort_by=..., page=...)`. */
  datatype ListRequest = ListRequest(search: string, sortBy: string, page: int)

  /** A dataset object; a missing attribute is `None`. */
  datatype Dataset = Dataset(ref: Option<string>, title: Option<string>, url: Option<string>)

  /** What `dataset_list` does: raise, or return datasets in order. */
  datatype ListResponse = ListFailed | Listed(datasets: seq<Dataset>)

  function Request(query: string): ListRequest {
    ListRequest(query, "votes", 1)
  }

  /** Shaping one dataset: a missing ref is empty, a missing title falls back to the
      ref, a missing url falls back to the dataset's page on the site. */
  function ToResult(d: Dataset): (r: SearchResult)
    ensures Complete(r) && r.platform == Some(KAGGLE)
    ensures d.title.Some? ==> r.title == d.title
    ensures d.title.None? ==> r.title == Some(d.ref.GetOr(""))
    ensures d.url.Some? ==> r.url == d.url
    ensures d.url.None? ==> StartsWith(r.url.value, SITE) && r.url.value[|SITE|..] == d.ref.GetOr("")
  {
    var ref := d.ref.GetOr("");
    Entry(KAGGLE, d.title.GetOr(ref), d.url.GetOr(SITE + ref))
  }

  /** `search_datasets(query, max_results)`. */
  function Search(svc: KaggleService, query: string, maxResults: int,
                  api: ListRequest -> ListResponse): (s: Searched<ListRequest>)
    ensures !svc.available ==> s.calls == [] && s.results == []
    ensures svc.available ==> s.calls == [Request(query)]
    ensures AllFrom(s.results, KAGGLE)
    ensures 0 <= maxResults ==> |s.results| <= maxResults
    ensures svc.available && api(Request(query)).ListFailed? ==> s.results == []
    ensures svc.available && api(Request(query)).Listed? ==>
              var ds := api(Request(query)).datasets;
              && (0 <= maxResults ==> |s.results| == Min(maxResults, |ds|))
              && |s.results| <= |ds|
              && |s.results| == |SliceTo(ds, maxResults)|
              && forall i :: 0 <= i < |s.results| ==> s.results[i] == ToResult(ds[i])
  {
    if !svc.available then Searched([], [])
    else
      match api(Request(query))
      case ListFailed => Searched([Request(query)], [])
      case Listed(ds) =>
        var shown := SliceTo(ds, maxResults);
        Searched([Request(query)], seq(|shown|, i requires 0 <= i < |shown| => ToResult(shown[i])))
  }

  /** An unavailable service answers every query with nothing, whatever the backend
      would have said, and never reaches it. */
  lemma UnavailableShortCircuits(query: string, maxResults: int,
                                 api1: ListRequest -> ListResponse, api2: ListRequest -> ListResponse)
    ensures Search(Connect(false), query, maxResults, api1) == Search(Connect(false), query, maxResults, api2)
    ensures Search(Connect(false), query, maxResults, api1).calls == []
  {
  }

  /** The availability fixed at construction decides, for every query, limit and
      backend, whether a search reaches the API: once when authentication succeeded,
      never (and with no results) when it failed. */
  lemma AvailabilityDecidesCalls(authenticated: bool, query: string, maxResults: int,
                                 api: ListRequest -> ListResponse)
    ensures Search(Connect(authenticated), query, maxResults, api).calls ==
              (if authenticated then [Request(query)] else [])
    ensures !authenticated ==> Search(Connect(authenticated), query, maxResults, api).results == []
  {
  }

  /** A negative `max_results` slices from the end: one fewer result than datasets. */
  lemma NegativeLimitDropsFromEnd(query: string, api: ListRequest -> ListResponse)
    requires api(Request(query)).Listed? && |api(Request(query)).datasets| >= 1
    ensures |Search(Connect(true), query, -1, api).results| == |api(Request(query)).datasets| - 1
  {
  }
}

=== FILE: router.dfy ===
/** `handle_message`: the incoming text, stripped of surrounding whitespace, selects the
    mode. Exactly the word `MLparset` asks for the bundle of the staging directory;
    anything else, the empty text included, is handed to the search as its query. */
module Router {
  import opened Base
  import opened Text
  import Bundle
  import Aggregator

  const MODE_WORD: string := "MLparset"

  datatype Route = ToBundle | ToSearch(query: string)

  /** The text of a message with no text is taken to be empty. */
  function MessageText(text: Option<string>): string {
    text.GetOr("")
  }

  /** The routing decision of `handle_message`. */
  function Classify(text: Option<string>): (r: Route)
    ensures r.ToBundle? <==> Strip(MessageText(text)) == MODE_WORD
    ensures r.ToSearch? ==> r.query == Strip(MessageText(text)) && Trimmed(r.query) && r.query != MODE_WORD
  {
    var t := Strip(MessageText(text));
    if t == MODE_WORD then ToBundle else ToSearch(t)
  }

  /** Whitespace around the keyword does not matter: it still selects the bundle. */
  lemma PaddedKeywordBundles(pre: string, post: string)
    requires AllSpace(pre) && AllSpace(post)
    ensures Classify(Some(pre + MODE_WORD + post)) == ToBundle
  {
    StripPadded(pre, MODE_WORD, post);
  }

  /** Any other text reaches the search as exactly the text with its padding removed. */
  lemma PaddedTextSearches(pre: string, q: string, post: string)
    requires AllSpace(pre) && AllSpace(post) && Trimmed(q) && q != MODE_WORD
    ensures Classify(Some(pre + q + post)) == ToSearch(q)
  {
    StripPadded(pre, q, post);
  }

  /** The keyword is case sensitive: `mlparset` is an ordinary search query. */
  lemma KeywordIsCaseSensitive()
    ensures Classify(Some("mlparset")) == ToSearch("mlparset")
  {
    assert "mlparset"[0] != MODE_WORD[0];
    StripPadded("", "mlparset", "");
    assert "" + "mlparset" + "" == "mlparset";
  }

  /** Text made only of whitespace routes to the search with the empty query. */
  lemma BlankRoutesToEmptySearch(text: Option<string>)
    ensures text.None? || AllSpace(text.value) ==> Classify(text) == ToSearch("")
  {
    var s := MessageText(text);
    if AllSpace(s) {
      StripPadded(s, "", "");
      assert s + "" + "" == s;
    }
  }

  /** What the handler did with one message. */
  datatype Handled = BundleHandled(bundle: Bundle.BundleReply) | SearchHandled(search: Aggregator.SearchReply)

  /** `handle_message`, with the environment the two modes need. */
  function HandleMessage(text: Option<string>, w: Bundle.World, o: Bundle.Oracles,
                         reg: Aggregator.Registry, be: Aggregator.Backends, markdownDelivered: bool): (r: Handled)
    requires o.freshName.Some? ==> o.freshName.value !in w.temp
    ensures r.BundleHandled? <==> Strip(MessageText(text)) == MODE_WORD
    ensures r.BundleHandled? ==> r.bundle == Bundle.HandleBundle(w, o)
    ensures r.SearchHandled? ==> r.search == Aggregator.HandleSearch(Strip(MessageText(text)), reg, be, markdownDelivered)
  {
    match Classify(text)
    case ToBundle => BundleHandled(Bundle.HandleBundle(w, o))
    case ToSearch(q) => SearchHandled(Aggregator.HandleSearch(q, reg, be, markdownDelivered))
  }

  /** A message with no text, or only whitespace, gets no reply and asks no backend. */
  lemma BlankMessageIsSilent(text: Option<string>, w: Bundle.World, o: Bundle.Oracles,
                             reg: Aggregator.Registry, be: Aggregator.Backends, markdownDelivered: bool)
    requires o.freshName.Some? ==> o.freshName.value !in w.temp
    requires text.None? || AllSpace(text.value)
    ensures var r := HandleMessage(text, w, o, reg, be, markdownDelivered);
            r.SearchHandled? && r.search.messages == [] && Aggregator.NoCalls(r.search.backends)
  {
    BlankRoutesToEmptySearch(text);
  }
}

=== FILE: search_results.dfy ===
/** The common result shape every catalog adapter returns, and the trace of one search. */
module SearchResults {
  import opened Base

  const KAGGLE: string := "Kaggle"
  const HUGGING_FACE: string := "HuggingFace"
  const GITHUB: string := "GitHub"

  /** One result dictionary with keys `platform`, `title` and `url`; a key the
      dictionary lacks is `None`. The adapters always fill all three. */
  datatype SearchResult = SearchResult(platform: Option<string>, title: Option<string>, url: Option<string>)

  /** A result dictionary with all three keys present. */
  function Entry(platform: string, title: string, url: string): SearchResult {
    SearchResult(Some(platform), Some(title), Some(url))
  }

  predicate Complete(r: SearchResult) {
    r.platform.Some? && r.title.Some? && r.url.Some?
  }

  /** Every result is complete and was produced by `platform`. */
  predicate AllFrom(rs: seq<SearchResult>, platform: string) {
    forall i :: 0 <= i < |rs| ==> Complete(rs[i]) && rs[i].platform == Some(platform)
  }

  /** One adapter call: the requests it sent to its backend, in order, and the list
      it returned to the handler. */
  datatype Searched<Req> = Searched(calls: seq<Req>, results: seq<SearchResult>)

  /** Python's `xs[:n]` for any integer `n`: a prefix of `xs`; a negative `n` drops
      `-n` elements from the end. */
  function SliceTo<T>(xs: seq<T>, n: int): (r: seq<T>)
    ensures |r| <= |xs| && r == xs[..|r|]
    ensures 0 <= n ==> |r| == Min(n, |xs|)
    ensures n < 0 ==> |r| == Max(0, |xs| + n)
  {
    if n >= 0 then xs[..Min(n, |xs|)] else xs[..Max(0, |xs| + n)]
  }
}

=== FILE: text.dfy ===
/** String helpers the handlers and services rely on: Python's `str.strip()`,
    `str.endswith`, `str.replace(c, '')` and decimal rendering of integers. */
module Text {

  /** Python's `str.isspace()` for one character: the ASCII controls 9-13 and 28-31,
      the space, and the Unicode separators Python treats as whitespace. */
  predicate IsSpace(c: char) {
    || c == ' '
    || ('\t' <= c <= '\r')
    || ('\U{1C}' <= c <= '\U{1F}')
    || c == '\U{85}' || c == '\U{A0}' || c == '\U{1680}'
    || ('\U{2000}' <= c <= '\U{200A}')
    || c == '\U{2028}' || c == '\U{2029}' || c == '\U{202F}' || c == '\U{205F}' || c == '\U{3000}'
  }

  predicate AllSpace(s: string) {
    forall i :: 0 <= i < |s| ==> IsSpace(s[i])
  }

  /** Neither end of `s` is whitespace (vacuously true of the empty string). */
  predicate Trimmed(s: string) {
    s == "" || (!IsSpace(s[0]) && !IsSpace(s[|s| - 1]))
  }

  /** Length of the longest all-whitespace prefix. */
  function LeadingSpaces(s: string): (n: nat)
    ensures n <= |s|
    ensures AllSpace(s[..n])
    ensures n == |s| || !IsSpace(s[n])
  {
    if |s| == 0 || !IsSpace(s[0]) then 0
    else
      var m := LeadingSpaces(s[1..]);
      assert s[..1 + m] == [s[0]] + s[1..][..m];
      1 + m
  }

  /** Length of the longest all-whitespace suffix. */
  function TrailingSpaces(s: string): (n: nat)
    ensures n <= |s|
    ensures AllSpace(s[|s| - n..])
    ensures n == |s| || !IsSpace(s[|s| - n - 1])
  {
    if |s| == 0 || !IsSpace(s[|s| - 1]) then 0
    else
      var init := s[..|s| - 1];
      var m := TrailingSpaces(init);
      assert s[|s| - (1 + m)..] == init[|init| - m..] + [s[|s| - 1]];
      assert m < |init| ==> s[|s| - (1 + m) - 1] == init[|init| - m - 1];
      1 + m
  }

  /** Python's `s.strip()`: `s` loses its leading and trailing whitespace and nothing else. */
  function Strip(s: string): (r: string)
    ensures Trimmed(r)
    ensures LeadingSpaces(s) + |r| <= |s|
    ensures s[LeadingSpaces(s)..LeadingSpaces(s) + |r|] == r
    ensures AllSpace(s[LeadingSpaces(s) + |r|..])
  {
    var k := LeadingSpaces(s);
    var t := s[k..];
    var r := t[..|t| - TrailingSpaces(t)];
    assert r == "" || r[0] == s[k];
    r
  }

  /** Stripping is determined by the padding: whatever whitespace surrounds a trimmed
      string, `Strip` gives back exactly that string. */
  lemma StripPadded(pre: string, mid: string, post: string)
    requires AllSpace(pre) && AllSpace(post) && Trimmed(mid)
    ensures Strip(pre + mid + post) == mid
  {
    var s := pre + mid + post;
    var n := LeadingSpaces(s);
    if mid == "" {
      assert AllSpace(s);
      assert n == |s|;
    } else {
      assert s[|pre|] == mid[0];
      assert n == |pre|;
      var t := s[n..];
      assert t == mid + post;
      var m := TrailingSpaces(t);
      assert t[|mid| - 1] == mid[|mid| - 1];
      assert m == |post|;
      assert t[..|t| - m] == mid;
    }
  }

  /** `strip()` is idempotent. */
  lemma StripIdempotent(s: string)
    ensures Strip(Strip(s)) == Strip(s)
  {
    StripPadded("", Strip(s), "");
    assert "" + Strip(s) + "" == Strip(s);
  }

  /** Python's `s.endswith(suffix)`. */
  predicate EndsWith(s: string, suffix: string) {
    |suffix| <= |s| && s[|s| - |suffix|..] == suffix
  }

  /** Python's `s.startswith(prefix)`. */
  predicate StartsWith(s: string, prefix: string) {
    |prefix| <= |s| && s[..|prefix|] == prefix
  }

  /** A string that starts with `prefix` is `prefix` followed by the rest. */
  lemma StartsWithSplit(s: string, prefix: string)
    requires StartsWith(s, prefix)
    ensures s == prefix + s[|prefix|..]
  {
    assert s == s[..|prefix|] + s[|prefix|..];
  }

  /** Python's `s.replace(c, '')` for a single character `c`: every `c` goes, every other
      character stays, with the same multiplicity. */
  function RemoveAll(s: string, c: char): (r: string)
    ensures c !in r
    ensures multiset(r) == multiset(s)[c := 0]
  {
    if s == [] then []
    else
      assert s == [s[0]] + s[1..];
      if s[0] == c then RemoveAll(s[1..], c) else [s[0]] + RemoveAll(s[1..], c)
  }

  /** Removal works piecewise, so the surviving characters keep their order. */
  lemma {:induction false} RemoveAllAppend(a: string, b: string, c: char)
    ensures RemoveAll(a + b, c) == RemoveAll(a, c) + RemoveAll(b, c)
  {
    if a != [] {
      assert (a + b)[1..] == a[1..] + b;
      RemoveAllAppend(a[1..], b, c);
    } else {
      assert a + b == b;
    }
  }

  /** A string without `c` is left unchanged. */
  lemma {:induction false} RemoveAllAbsent(s: string, c: char)
    requires c !in s
    ensures RemoveAll(s, c) == s
  {
    if s != [] {
      assert s[0] != c;
      assert c !in s[1..];
      RemoveAllAbsent(s[1..], c);
    }
  }

  /** Number of occurrences of `c` in `s`. */
  function Occurrences(s: string, c: char): nat {
    multiset(s)[c]
  }

  predicate IsDigit(c: char) {
    '0' <= c <= '9'
  }

  predicate AllDigits(s: string) {
    forall i :: 0 <= i < |s| ==> IsDigit(s[i])
  }

  function DigitChar(d: nat): (c: char)
    requires d < 10
  {
    (48 + d) as char
  }

  function DigitValue(c: char): nat
    requires IsDigit(c)
  {
    c as int - 48
  }

  /** Python's `str(n)` / `f"{n}"` for a non-negative integer: decimal digits, no
      leading zero except for zero itself. */
  function NatToDecimal(n: nat): (r: string)
    ensures |r| >= 1
    ensures AllDigits(r)
    ensures (r[0] == '0') == (n == 0)
    ensures n == 0 ==> r == "0"
    decreases n
  {
    if n < 10 then [DigitChar(n)]
    else
      var p := NatToDecimal(n / 10);
      p + [DigitChar(n % 10)]
  }

  /** The value a string of decimal digits denotes. */
  function DecimalValue(s: string): nat
    requires AllDigits(s)
  {
    if s == [] then 0
    else DecimalValue(s[..|s| - 1]) * 10 + DigitValue(s[|s| - 1])
  }

  /** Reading back the decimal rendering of `n` gives `n`. */
  lemma {:induction false} DecimalRoundTrip(n: nat)
    ensures DecimalValue(NatToDecimal(n)) == n
    decreases n
  {
    var r := NatToDecimal(n);
    if n >= 10 {
      DecimalRoundTrip(n / 10);
      assert r[..|r| - 1] == NatToDecimal(n / 10);
    }
  }

  /** Distinct numbers render as distinct strings. */
  lemma DecimalInjective(m: nat, n: nat)
    requires NatToDecimal(m) == NatToDecimal(n)
    ensures m == n
  {
    DecimalRoundTrip(m);
    DecimalRoundTrip(n);
  }
}
